=== FILE: README.md ===
# asg-route53: a Dafny model of the DNS reconciliation core

This project models the core of asg-route53, an AWS Lambda function. It keeps Route 53
DNS records in step with the members of an EC2 Auto Scaling group. When an
instance launches, its address is published under every configured record name.
When it terminates, those records are removed. The model covers three parts:

- **Zone-configuration loading** (`ZoneConfigLoader`, `Strings`). The instance's
  tags are read in the private or the public namespace. A partial configuration
  is an error and a missing one is "absent". The hosted-zone existence check is an
  input outcome. The record list is split at every comma exactly as Go's
  `strings.Split` does.
- **Change-batch construction and record matching** (`AsgRoute53`). Every record
  name gets a TXT/A record pair with a shared name, TTL 10, set identifier and
  multi-value flag. Upsert publishes the public or the private address. Delete
  first lists the zone's record sets starting at the record name and type A. It
  takes the first listed set that satisfies the set-identifier rule (both
  absent, or both present and equal), whatever that set's name or type, and
  copies its records exactly into the A change.
- **Event decision rules** (`LambdaHandler`). Configurations are accumulated and
  dispatched on the lifecycle transition, and the first error stops the run.
  Only a failed launch is ABANDONed; every other supported transition completes
  with CONTINUE, and an unsupported one exits without completing anything.

Remote services are parameters. The zone check is an `Option<Error>`. The record
listing is a function from record name to `Result<seq<ResourceRecordSet>, Error>`.
The change call is a function from the submitted `ChangeCall` to `Option<Error>`.
The handler receives one listing and one change-call outcome per
reconciliation, indexed by its position in the loop, just as each of the two
zone checks has its own outcome.
Upsert and Delete return the change call they submitted together with the error
they returned, so properties can be stated about the batch itself.

Go nil pointers are `Option`s. A tag whose key matches but whose value is nil
makes the lookup return nil without searching further, and the model keeps that.

The model follows the code as written:

- A failing zone check's error is returned as it is (zone_config_loader.go:77-79).
- A zone id that is an empty string is accepted: only a missing tag or a nil
  value counts as absent (zone_config_loader.go:67-72).
- `appendZoneConfig` (main.go:52) always loads the private scope and ignores its
  `isPublic` argument. So the handler never resolves a public configuration, and
  a configured instance gets its private configuration twice
  (`ResolveZoneConfigs`, `AppendZoneConfigIgnoresScope`). Its records are then
  reconciled twice, each time with that call's own remote answers. The second
  reconciliation may therefore fail where the first succeeded, in one of two
  ways. With a set identifier, the second DELETE's lookup usually finds no
  matching set once the first one removed it. It then fails with
  RecordNotFound before any change call, and the run returns that error after
  the first reconciliation's single change call. Without a set identifier, the
  lookup usually matches the next listed set that has no identifier, under
  whatever later name (asg_route53.go:113-128). So a second change call is
  made, and the error is that call's. `DispatchStopsAtFirstError` states both
  cases.

Files: `wrappers.dfy` (Option, Result, the error variants), `strings.dfy`,
`zone_config_loader.dfy`, `asg_route53.dfy`, `lambda_handler.dfy`.

## Model

| member | source | states |
|---|---|---|
| Strings.Split | asgroute53/zone_config_loader.go:83 | the record list has one more segment than the tag value has commas (so it is never empty), and no segment contains a comma |
| Strings.JoinSplit | asgroute53/zone_config_loader.go:83 | joining the segments with "," gives back the tag value: nothing is trimmed or dropped |
| Strings.SplitAtComma | asgroute53/zone_config_loader.go:83 | cutting at a comma splits both sides independently, so empty segments at either end are kept |
| Strings.EmptySegmentsKept | asgroute53/zone_config_loader.go:83 | two adjacent commas yield an empty record name between them |
| Strings.SplitJoin | asgroute53/zone_config_loader.go:83 | splitting is the inverse of joining on comma-free lists, so the segment list is the unique comma-free list that joins back to the tag value |
| ZoneConfigLoader.KeysFor | asgroute53/zone_config_loader.go:53-61 | the three keys of a scope are pairwise distinct and all lie under that scope's own "asg-route53-lambda:public-" or "asg-route53-lambda:private-" prefix |
| ZoneConfigLoader.ScopesDisjoint | asgroute53/zone_config_loader.go:27-32 | no tag key belongs to both the private and the public scope |
| ZoneConfigLoader.FindValueFirstMatch | asgroute53/zone_config_loader.go:41-49 | the value of the first tag whose key equals the requested key (nil if that value is nil); nil when no tag has the key |
| ZoneConfigLoader.NewConfig | asgroute53/zone_config_loader.go:81-86 | the built configuration carries the zone id, set identifier and scope it was given, and a non-empty comma-free record list that joins back to the tag value |
| ZoneConfigLoader.FromTagValues | asgroute53/zone_config_loader.go:67-89 | on the three looked-up values: exactly one of zone id and record list is an Incomplete error naming both keys, with no zone check; neither is absent; both checks that zone and returns a failing check's error unchanged; a built config exists only after a passing check, is valid, keeps the scope and set identifier, and its zone id and joined record list are the looked-up values |
| ZoneConfigLoader.Load | asgroute53/zone_config_loader.go:52-90 | exactly one of zone id and record list gives Incomplete with no zone check; neither gives absent with no zone check; both checks that zone, returns a failing check's error unchanged, and otherwise returns a valid config of the requested scope whose zone id, record list and set identifier are those tag values |
| ZoneConfigLoader.MultiValueAnswer | asgroute53/zone_config_loader.go:93-99 | present exactly when a set identifier is present, and never false |
| ZoneConfigLoader.LoadTagsRoundTrip | asgroute53/zone_config_loader.go:63-86 | loading the tags that describe a valid configuration, with a passing zone check, gives back exactly that configuration |
| ZoneConfigLoader.LoadReadsOnlyOwnScope | asgroute53/zone_config_loader.go:53-65 | a load depends only on the tags of its own scope's namespace; the other scope's tags never influence it |
| ZoneConfigLoader.LoadAmongOtherScopeTags | asgroute53/zone_config_loader_test.go:72-110 | a scope's tags with any tags outside its namespace before and after them (the private case has the public tags before, the public case the private tags after) load as exactly the configuration they describe |
| ZoneConfigLoader.LoadWithoutTagsIsAbsent | asgroute53/zone_config_loader_test.go:178-197 | with no tags, either scope is absent and no zone is checked |
| AsgRoute53.TxtValue | asgroute53/asg_route53.go:90 | the TXT value is the instance id with one literal double quote before and after it |
| AsgRoute53.GetChanges | asgroute53/asg_route53.go:76-110 | exactly two changes, TXT then A, forming a record pair with the given action, name and TTL and the config's set identifier; the multi-value flag is true when the config has a set identifier and nil otherwise; the TXT holds only the quoted instance id, and the A holds the given records |
| AsgRoute53.BuildBatch | asgroute53/asg_route53.go:56-64 | 2·n changes for n names in name order; entries 2i and 2i+1 are the TXT and A of name i; all carry the same action, TTL 10, set identifier and multi-value flag |
| AsgRoute53.BatchIsPaired | asgroute53/asg_route53.go:76-110 | every batch is a sequence of record pairs (TXT then A, same action, name, TTL, set identifier and multi-value flag) |
| AsgRoute53.UpsertRecordSets | asgroute53/asg_route53.go:50-74 | one change call against the config's zone with 2·n UPSERT changes for n record names, in name order, TTL 10, the config's set identifier, and the multi-value flag true exactly when a set identifier is present (nil otherwise); each A holds exactly one value, the public address when the config is public and the private one otherwise; the call's error is returned unchanged |
| AsgRoute53.FirstMatching | asgroute53/asg_route53.go:123-131 | the first listed set whose set identifier matches, judged on the set identifier alone; RecordNotFound for the name exactly when no set matches |
| AsgRoute53.GetARecordSet | asgroute53/asg_route53.go:112-132 | a listing error is returned unchanged; otherwise success exactly when some listed set matches (both identifiers absent, or both present and equal), returning the first match, which carries exactly the wanted set identifier; otherwise RecordNotFound naming the record |
| AsgRoute53.LookupSkipsOtherGroups | asgroute53/asg_route53.go:123-128 | a set with a different set identifier listed ahead of a member's own set is skipped |
| AsgRoute53.LookupIgnoresNameAndType | asgroute53/asg_route53.go:123-128 | the first listed set with a matching set identifier is returned whatever its name or record type |
| AsgRoute53.CollectARecords | asgroute53/asg_route53.go:29-37 | all lookups succeed exactly when each name's lookup does, giving each found set's records in name order; otherwise the first failing name's error |
| AsgRoute53.DeleteRecordSets | asgroute53/asg_route53.go:27-47 | the first failing lookup's error is returned and no change call is made; a change call is made exactly when every lookup succeeds, with 2·n DELETE changes for n record names, in name order, TTL 10, the config's set identifier, the multi-value flag true exactly when a set identifier is present (nil otherwise), the TXT holding the quoted instance id and each A holding exactly the found set's records; its error is returned unchanged |
| AsgRoute53.DeleteMirrorsUpsert | asgroute53/asg_route53.go:27-74 | when each listing answers with the A set an Upsert wrote, the Delete batch is the Upsert batch with every action turned into DELETE |
| LambdaHandler.AppendZoneConfig | main.go:48-62 | a load error is returned with no list; an absent config leaves the list unchanged; a present one is appended at the end with earlier entries kept; whatever was appended is private |
| LambdaHandler.AppendZoneConfigIgnoresScope | main.go:52 | asking for the public scope appends exactly what asking for the private scope does |
| LambdaHandler.ResolveZoneConfigs | main.go:84-93 | the first load's error is returned; an absent private config gives no configs; a loaded private config c gives the second zone check's error when that check fails and [c, c] otherwise; every resolved config is private |
| LambdaHandler.Reconcile | main.go:97-113 | a launch always submits one change call; a termination submits one exactly when every record name's lookup succeeds, and otherwise returns the first failed lookup's error with no call; a submitted call targets the config's zone and returns the call's error; it holds 2·n changes, every one UPSERT on a launch and DELETE on a termination, alternating TXT and A for the record names in order, with TTL 10, the config's set identifier and multi-value flag; each TXT holds the quoted instance id; each A holds the scope's published address on a launch and the found set's records on a termination |
| LambdaHandler.TerminateUndoesLaunch | main.go:97-113 | when the listings answer with what the launch wrote, the termination submits exactly the launch's batch with every action turned into DELETE |
| LambdaHandler.DispatchConfigs | main.go:100-113 | the run succeeds exactly when every config's reconciliation does, and then submits one call per config; in every case the j-th submitted call is the j-th reconciliation's call, so calls follow config order and never outnumber the configs |
| LambdaHandler.DispatchStopsAtFirstError | main.go:100-113 | when config k is the first to fail, its error is returned after the calls of configs 0..k-1 in order and the failing config's own call, if any; later configs submit nothing |
| LambdaHandler.LifecycleEventHandler | main.go:84-118 | a config-resolution error is returned with no change calls; an unsupported transition is an error with no change calls; LAUNCHING upserts and TERMINATING deletes through the dispatch loop, the i-th config answered by the i-th listing and change-call outcomes; every change of every submitted call has UPSERT on a launch and DELETE otherwise; success implies a supported transition |
| LambdaHandler.HandleEvent | main.go:122-151 | unsupported transitions submit no change call and complete nothing; supported ones submit the handler's calls and complete; ABANDON exactly when a LAUNCHING run failed, returning the handling error; CONTINUE otherwise, returning the completion call's error, so a TERMINATING run always continues; a successful launch means handling and completion both succeeded |

## Left out

- AWS SDK clients, session creation, `lambda.Start` and `main` (main.go:64-68, 137-138, 153-155). They are process wiring; the remote calls they enable appear only as outcome parameters.
- SNS message decoding (main.go:123-130). It is JSON parsing; the model starts from the decoded lifecycle transition.
- Nil tag keys. The lookup dereferences every tag key without a nil check (zone_config_loader.go:43) and would panic on a nil key; `Tag.key` is a plain string, so tag keys are assumed present.
- `DescribeInstances` and instance selection (main.go:70-83). The instance is an input. The model assumes a non-empty reservation and a present instance id. The source's `len(...) < 0` guard can never fire, and its `[0]` indexing panics on an empty answer; that panic is not modelled.
- The `CompleteLifecycleAction` call (main.go:31-46). Only its outcome is modelled, as an input, together with which result is sent.
- Logging and the JSON dump of configurations (main.go:39-43, 94-95, 99, 107, 124, 133), and the text of `fmt.Errorf` messages. Errors are variants that carry the values the messages mention.
- The listing request's parameters (zone, start type "A", start name). The listing is a function of the record name within one zone; its paging is not modelled.
- Which lookups the source skips after the first failure. The model is pure, so a lookup that is not performed has no observable effect.
- Route 53 store semantics: batch atomicity, the state after UPSERT or DELETE, and concurrent writers. The code only builds and submits batches. The upsert-then-delete round trip is stated about the batches (`AsgRoute53.DeleteMirrorsUpsert`), not about a store.
- asgroute53/mocked_route53.go. It is a test double whose configured-output-or-error behaviour is what the outcome parameters already express.
- 64-bit TTL width. The TTL is the constant 10, which fits in every width.

=== FILE: asg_route53.dfy ===
/** The Route 53 record-set ledger: builds the paired TXT/A change batch that
    publishes or removes one instance under every record name of a zone
    configuration, and submits it in one call. The list and change calls of
    Route 53 are inputs: `list` answers the A-record listing started at a
    record name, and `change` answers a submitted change batch. */
module AsgRoute53 {
  import opened Wrappers
  import opened Errors
  import opened ZoneConfigLoader

  /** TTL of every record this system writes. */
  const Ttl: int := 10

  datatype Action = UPSERT | DELETE

  /** Record types: the two this system writes, and any other a listing may
      return. */
  datatype RecordType = TXT | A | Other(typeName: string)

  datatype ResourceRecord = ResourceRecord(value: Option<string>)

  datatype ResourceRecordSet = ResourceRecordSet(
    name: string,
    recordType: RecordType,
    resourceRecords: seq<ResourceRecord>,
    ttl: Option<int>,
    setIdentifier: Option<string>,
    multiValueAnswer: Option<bool>)

  datatype Change = Change(action: Action, recordSet: ResourceRecordSet)

  /** One `ChangeResourceRecordSets` request. */
  datatype ChangeCall = ChangeCall(hostedZoneId: string, changes: seq<Change>)

  /** The parts of an EC2 instance the ledger reads. Go dereferences the
      instance id unconditionally; the addresses are nil-able pointers. */
  datatype Instance = Instance(
    instanceId: string,
    privateIpAddress: Option<string>,
    publicIpAddress: Option<string>,
    tags: seq<Tag>)

  /** What an Upsert or Delete did: the change call it submitted, if any, and
      the error it returned. */
  datatype Submission = Submission(call: Option<ChangeCall>, err: Option<Error>)

  type Lister = string -> Result<seq<ResourceRecordSet>, Error>
  type Changer = ChangeCall -> Option<Error>

  /** The TXT value of an instance: its id between literal double quotes. */
  function TxtValue(instanceId: string): (v: string)
    ensures |v| == |instanceId| + 2
    ensures v[0] == '"' && v[|v| - 1] == '"'
    ensures v[1..|v| - 1] == instanceId
  {
    "\"" + instanceId + "\""
  }

  /** The record-pair invariant: a TXT change and an A change that mutate the
      same name the same way, with the same TTL, set identifier and
      multi-value flag. */
  predicate IsRecordPair(txt: Change, a: Change) {
    && txt.recordSet.recordType == TXT
    && a.recordSet.recordType == A
    && txt.action == a.action
    && txt.recordSet.name == a.recordSet.name
    && txt.recordSet.ttl == a.recordSet.ttl
    && txt.recordSet.setIdentifier == a.recordSet.setIdentifier
    && txt.recordSet.multiValueAnswer == a.recordSet.multiValueAnswer
  }

  /** `getChanges`: the TXT change naming the instance, then the A change
      carrying `aRecords`, as one record pair. */
  function GetChanges(action: Action, config: ZoneConfig, name: string, ttl: int,
                      instanceId: string, aRecords: seq<ResourceRecord>): (cs: seq<Change>)
    ensures |cs| == 2 && IsRecordPair(cs[0], cs[1])
    ensures cs[0].action == action && cs[0].recordSet.name == name
    ensures cs[0].recordSet.ttl == Some(ttl)
    ensures cs[0].recordSet.setIdentifier == config.setIdentifier
    ensures cs[0].recordSet.multiValueAnswer == MultiValueAnswer(config)
    ensures cs[0].recordSet.resourceRecords == [ResourceRecord(Some(TxtValue(instanceId)))]
    ensures cs[1].recordSet.resourceRecords == aRecords
  {
    [ Change(action, ResourceRecordSet(name, TXT, [ResourceRecord(Some(TxtValue(instanceId)))],
                                       Some(ttl), config.setIdentifier, MultiValueAnswer(config))),
      Change(action, ResourceRecordSet(name, A, aRecords,
                                       Some(ttl), config.setIdentifier, MultiValueAnswer(config))) ]
  }

  /** The change batch for `names`, one record pair per name in order; the A
      change for `names[i]` carries `aRecords[i]`. */
  function BuildBatch(action: Action, config: ZoneConfig, names: seq<string>,
                      instanceId: string, aRecords: seq<seq<ResourceRecord>>): (cs: seq<Change>)
    requires |aRecords| == |names|
    ensures |cs| == 2 * |names|
    ensures forall j | 0 <= j < |cs| ::
              && cs[j].action == action
              && cs[j].recordSet.name == names[j / 2]
              && cs[j].recordSet.ttl == Some(Ttl)
              && cs[j].recordSet.setIdentifier == config.setIdentifier
              && cs[j].recordSet.multiValueAnswer == MultiValueAnswer(config)
    ensures forall j | 0 <= j < |cs| && j % 2 == 0 ::
              && cs[j].recordSet.recordType == TXT
              && cs[j].recordSet.resourceRecords == [ResourceRecord(Some(TxtValue(instanceId)))]
    ensures forall j | 0 <= j < |cs| && j % 2 == 1 ::
              && cs[j].recordSet.recordType == A
              && cs[j].recordSet.resourceRecords == aRecords[j / 2]
    decreases |names|
  {
    if |names| == 0 then []
    else
      var head := GetChanges(action, config, names[0], Ttl, instanceId, aRecords[0]);
      var rest := BuildBatch(action, config, names[1..], instanceId, aRecords[1..]);
      assert forall j | 2 <= j < 2 * |names| :: (j - 2) / 2 == j / 2 - 1 && (j - 2) % 2 == j % 2;
      head + rest
  }

  /** Every batch is a sequence of record pairs: the TXT and A changes of a
      name always travel together. */
  lemma BatchIsPaired(action: Action, config: ZoneConfig, names: seq<string>,
                      instanceId: string, aRecords: seq<seq<ResourceRecord>>)
    requires |aRecords| == |names|
    ensures var cs := BuildBatch(action, config, names, instanceId, aRecords);
            forall i | 0 <= i < |names| :: IsRecordPair(cs[2 * i], cs[2 * i + 1])
  {
  }

  /** The address an instance publishes in a configuration's scope. */
  function PublishedAddress(config: ZoneConfig, instance: Instance): Option<string> {
    if config.isPublic then instance.publicIpAddress else instance.privateIpAddress
  }

  /** `UpsertRecordSets`: one UPSERT record pair per record name, the A record
      holding the public address in a public scope and the private address
      otherwise, submitted as one change call whose error is returned. */
  function UpsertRecordSets(config: ZoneConfig, instance: Instance, change: Changer): (r: Submission)
    ensures r.call.Some? && r.call.value.hostedZoneId == config.hostedZoneId
    ensures r.err == change(r.call.value)
    ensures var cs := r.call.value.changes;
            && |cs| == 2 * |config.dnsRecords|
            && (forall j | 0 <= j < |cs| ::
                  && cs[j].action == UPSERT
                  && cs[j].recordSet.ttl == Some(Ttl)
                  && cs[j].recordSet.name == config.dnsRecords[j / 2]
                  && cs[j].recordSet.setIdentifier == config.setIdentifier
                  && cs[j].recordSet.multiValueAnswer == MultiValueAnswer(config))
            && (forall j | 0 <= j < |cs| && j % 2 == 0 ::
                  && cs[j].recordSet.recordType == TXT
                  && cs[j].recordSet.resourceRecords == [ResourceRecord(Some(TxtValue(instance.instanceId)))])
            && (forall j | 0 <= j < |cs| && j % 2 == 1 ::
                  && cs[j].recordSet.recordType == A
                  && (config.isPublic ==>
                        cs[j].recordSet.resourceRecords == [ResourceRecord(instance.publicIpAddress)])
                  && (!config.isPublic ==>
                        cs[j].recordSet.resourceRecords == [ResourceRecord(instance.privateIpAddress)]))
  {
    var address := PublishedAddress(config, instance);
    var names := config.dnsRecords;
    var aRecords := seq(|names|, _ => [ResourceRecord(address)]);
    var call := ChangeCall(config.hostedZoneId, BuildBatch(UPSERT, config, names, instance.instanceId, aRecords));
    Submission(Some(call), change(call))
  }

  /** The set-identifier matching rule: both absent, or both present and
      equal. */
  predicate SetIdentifierMatches(wanted: Option<string>, found: Option<string>) {
    (wanted.None? && found.None?) || (wanted.Some? && found.Some? && wanted.value == found.value)
  }

  /** `i` is the first listed set whose set identifier matches. */
  predicate FirstMatchAt(sets: seq<ResourceRecordSet>, setIdentifier: Option<string>, i: int) {
    && 0 <= i < |sets|
    && SetIdentifierMatches(setIdentifier, sets[i].setIdentifier)
    && forall j | 0 <= j < i :: !SetIdentifierMatches(setIdentifier, sets[j].setIdentifier)
  }

  /** The first listed set whose set identifier matches; names and types of
      the listed sets are not consulted. */
  function FirstMatching(sets: seq<ResourceRecordSet>, name: string, setIdentifier: Option<string>)
    : (r: Result<ResourceRecordSet, Error>)
    ensures r.Failure? <==> forall i | 0 <= i < |sets| :: !SetIdentifierMatches(setIdentifier, sets[i].setIdentifier)
    ensures r.Failure? ==> r.error == RecordNotFound(name)
    ensures forall i | FirstMatchAt(sets, setIdentifier, i) :: r == Success(sets[i])
    ensures r.Success? ==> r.value in sets && r.value.setIdentifier == setIdentifier
    decreases |sets|
  {
    if |sets| == 0 then Failure(RecordNotFound(name))
    else if SetIdentifierMatches(setIdentifier, sets[0].setIdentifier) then Success(sets[0])
    else
      var r := FirstMatching(sets[1..], name, setIdentifier);
      assert forall i | FirstMatchAt(sets, setIdentifier, i) :: FirstMatchAt(sets[1..], setIdentifier, i - 1);
      assert forall i | 1 <= i < |sets| :: sets[i] == sets[1..][i - 1];
      r
  }

  /** `getARecordSet`: a failed listing is returned unchanged; otherwise the
      first listed set with a matching set identifier, or `RecordNotFound`
      naming the record when there is none. */
  function GetARecordSet(listed: Result<seq<ResourceRecordSet>, Error>, name: string,
                         setIdentifier: Option<string>): (r: Result<ResourceRecordSet, Error>)
    ensures listed.Failure? ==> r == Failure(listed.error)
    ensures listed.Success? && r.Failure? ==> r.error == RecordNotFound(name)
    ensures listed.Success? ==>
              (r.Success? <==> exists i | 0 <= i < |listed.value| ::
                                 SetIdentifierMatches(setIdentifier, listed.value[i].setIdentifier))
    ensures listed.Success? ==>
              forall i | FirstMatchAt(listed.value, setIdentifier, i) :: r == Success(listed.value[i])
    ensures r.Success? ==> r.value.setIdentifier == setIdentifier
  {
    match listed
    case Failure(e) => Failure(e)
    case Success(sets) => FirstMatching(sets, name, setIdentifier)
  }

  /** The lookup of one record name through the list call. */
  function Lookup(list: Lister, name: string, setIdentifier: Option<string>): Result<ResourceRecordSet, Error> {
    GetARecordSet(list(name), name, setIdentifier)
  }

  /** `k` is the first record name whose lookup fails. */
  predicate FirstFailureAt(list: Lister, names: seq<string>, setIdentifier: Option<string>, k: int) {
    && 0 <= k < |names|
    && Lookup(list, names[k], setIdentifier).Failure?
    && forall j | 0 <= j < k :: Lookup(list, names[j], setIdentifier).Success?
  }

  /** The lookups of the delete loop, in order, stopping at the first failing
      one: on success, the resource records of the set found for each name. */
  function CollectARecords(list: Lister, names: seq<string>, setIdentifier: Option<string>)
    : (r: Result<seq<seq<ResourceRecord>>, Error>)
    ensures r.Success? <==> forall i | 0 <= i < |names| :: Lookup(list, names[i], setIdentifier).Success?
    ensures r.Success? ==>
              && |r.value| == |names|
              && forall i | 0 <= i < |names| ::
                   r.value[i] == Lookup(list, names[i], setIdentifier).value.resourceRecords
    ensures forall k | FirstFailureAt(list, names, setIdentifier, k) ::
              r == Failure(Lookup(list, names[k], setIdentifier).error)
    decreases |names|
  {
    if |names| == 0 then Success([])
    else
      var found := Lookup(list, names[0], setIdentifier);
      if found.Failure? then Failure(found.error)
      else
        var rest := CollectARecords(list, names[1..], setIdentifier);
        assert forall k | FirstFailureAt(list, names, setIdentifier, k) && k > 0 ::
                 FirstFailureAt(list, names[1..], setIdentifier, k - 1);
        if rest.Failure? then Failure(rest.error)
        else Success([found.value.resourceRecords] + rest.value)
  }

  /** `DeleteRecordSets`: looks up, for every record name, the first listed
      set with a matching set identifier (whatever its name or type); the
      first failed lookup is returned and no change call is made.
      Otherwise one DELETE record pair per name, the A change carrying exactly
      the found set's records, is submitted as one change call whose error is
      returned. */
  function DeleteRecordSets(config: ZoneConfig, instance: Instance, list: Lister, change: Changer): (r: Submission)
    ensures forall k | FirstFailureAt(list, config.dnsRecords, config.setIdentifier, k) ::
              r == Submission(None, Some(Lookup(list, config.dnsRecords[k], config.setIdentifier).error))
    ensures r.call.Some? <==>
              forall i | 0 <= i < |config.dnsRecords| ::
                Lookup(list, config.dnsRecords[i], config.setIdentifier).Success?
    ensures r.call.Some? ==>
              && r.call.value.hostedZoneId == config.hostedZoneId
              && r.err == change(r.call.value)
    ensures r.call.Some? ==>
              var cs := r.call.value.changes;
              && |cs| == 2 * |config.dnsRecords|
              && (forall j | 0 <= j < |cs| ::
                    && cs[j].action == DELETE
                    && cs[j].recordSet.ttl == Some(Ttl)
                    && cs[j].recordSet.name == config.dnsRecords[j / 2]
                    && cs[j].recordSet.setIdentifier == config.setIdentifier
                    && cs[j].recordSet.multiValueAnswer == MultiValueAnswer(config))
              && (forall j | 0 <= j < |cs| && j % 2 == 0 ::
                    && cs[j].recordSet.recordType == TXT
                    && cs[j].recordSet.resourceRecords == [ResourceRecord(Some(TxtValue(instance.instanceId)))])
              && (forall j | 0 <= j < |cs| && j % 2 == 1 ::
                    && cs[j].recordSet.recordType == A
                    && cs[j].recordSet.resourceRecords
                       == Lookup(list, config.dnsRecords[j / 2], config.setIdentifier).value.resourceRecords)
  {
    var found := CollectARecords(list, config.dnsRecords, config.setIdentifier);
    if found.Failure? then Submission(None, Some(found.error))
    else
      var call := ChangeCall(config.hostedZoneId,
                             BuildBatch(DELETE, config, config.dnsRecords, instance.instanceId, found.value));
      Submission(Some(call), change(call))
  }

  /** The A record set an Upsert of `instance` writes under `name`. */
  function UpsertedARecordSet(config: ZoneConfig, instance: Instance, name: string): ResourceRecordSet {
    ResourceRecordSet(name, A, [ResourceRecord(PublishedAddress(config, instance))],
                      Some(Ttl), config.setIdentifier, MultiValueAnswer(config))
  }

  /** The same changes with every action replaced by `action`. */
  function WithAction(cs: seq<Change>, action: Action): (r: seq<Change>)
    ensures |r| == |cs|
    ensures forall j | 0 <= j < |r| :: r[j] == Change(action, cs[j].recordSet)
  {
    seq(|cs|, j requires 0 <= j < |cs| => Change(action, cs[j].recordSet))
  }

  /** When every listing answers with exactly the A record set an Upsert of
      this instance wrote, the Delete batch is the Upsert batch with every
      action turned into DELETE: the TXT companion is rebuilt identically and
      the A record is removed with the content that was written. */
  lemma {:induction false} DeleteMirrorsUpsert(config: ZoneConfig, instance: Instance, list: Lister, change: Changer)
    requires forall i | 0 <= i < |config.dnsRecords| ::
               list(config.dnsRecords[i]) == Success([UpsertedARecordSet(config, instance, config.dnsRecords[i])])
    ensures var up := UpsertRecordSets(config, instance, change).call.value;
            DeleteRecordSets(config, instance, list, change).call
              == Some(ChangeCall(up.hostedZoneId, WithAction(up.changes, DELETE)))
  {
    var names := config.dnsRecords;
    var sid := config.setIdentifier;
    forall i | 0 <= i < |names|
      ensures Lookup(list, names[i], sid) == Success(UpsertedARecordSet(config, instance, names[i]))
    {
      assert FirstMatchAt([UpsertedARecordSet(config, instance, names[i])], sid, 0);
    }
    var up := UpsertRecordSets(config, instance, change).call.value;
    var del := DeleteRecordSets(config, instance, list, change).call;
    assert del.Some?;
    var expected := WithAction(up.changes, DELETE);
    assert |del.value.changes| == |expected|;
    forall j | 0 <= j < |expected|
      ensures del.value.changes[j] == expected[j]
    {
      assert Lookup(list, names[j / 2], sid) == Success(UpsertedARecordSet(config, instance, names[j / 2]));
    }
    assert del.value.changes == expected;
  }

  /** A listed set with a different set identifier ahead of this member's
      own set is skipped. Only the identifier is compared: this does not keep
      a delete from taking a later-listed set of another name or type. */
  lemma LookupSkipsOtherGroups(other: ResourceRecordSet, sets: seq<ResourceRecordSet>,
                               name: string, setIdentifier: Option<string>)
    requires other.setIdentifier != setIdentifier
    ensures GetARecordSet(Success([other] + sets), name, setIdentifier)
            == GetARecordSet(Success(sets), name, setIdentifier)
  {
  }

  /** The lookup judges a listed set by its set identifier alone: the first
      set with a matching identifier is taken, whatever its name or record
      type, so a delete may copy the records of another name's A set, or of a
      TXT set, into its A change. */
  lemma LookupIgnoresNameAndType(s: ResourceRecordSet, rest: seq<ResourceRecordSet>,
                                 name: string, setIdentifier: Option<string>)
    requires s.setIdentifier == setIdentifier
    ensures GetARecordSet(Success([s] + rest), name, setIdentifier) == Success(s)
  {
  }
}

=== FILE: lambda_handler.dfy ===
/** The decision rules of the Lambda entry point: accumulating zone
    configurations, dispatching on the lifecycle transition with the first
    error stopping the run, and choosing the lifecycle-action result. Instance
    lookup, event decoding and the completion call are inputs. */
module LambdaHandler {
  import opened Wrappers
  import opened Errors
  import opened ZoneConfigLoader
  import opened AsgRoute53

  const LaunchingTransition: string := "autoscaling:EC2_INSTANCE_LAUNCHING"
  const TerminatingTransition: string := "autoscaling:EC2_INSTANCE_TERMINATING"

  predicate Supported(transition: string) {
    transition == LaunchingTransition || transition == TerminatingTransition
  }

  datatype LifecycleResult = CONTINUE | ABANDON

  /** `appendZoneConfig`: loads a configuration and appends it when present.
      The loader is always asked for the private scope; the `isPublic`
      argument is not used. */
  function AppendZoneConfig(configs: seq<ZoneConfig>, tags: seq<Tag>, isPublic: bool,
                            zoneCheck: Option<Error>): (r: Result<seq<ZoneConfig>, Error>)
    ensures var loaded := Load(tags, false, zoneCheck).result;
            && (loaded.Failure? ==> r == Failure(loaded.error))
            && (loaded == Success(None) ==> r == Success(configs))
            && (loaded.Success? && loaded.value.Some? ==>
                  r.Success? && |r.value| == |configs| + 1 && r.value[|configs|] == loaded.value.value)
    ensures r.Success? ==> configs <= r.value && |r.value| <= |configs| + 1
    ensures r.Success? ==> forall i | |configs| <= i < |r.value| :: !r.value[i].isPublic
  {
    var loaded := Load(tags, false, zoneCheck).result;
    if loaded.Failure? then Failure(loaded.error)
    else if loaded.value.None? then Success(configs)
    else Success(configs + [loaded.value.value])
  }

  /** Whatever scope is asked for, the same configuration is appended. */
  lemma AppendZoneConfigIgnoresScope(configs: seq<ZoneConfig>, tags: seq<Tag>, zoneCheck: Option<Error>)
    ensures AppendZoneConfig(configs, tags, true, zoneCheck) == AppendZoneConfig(configs, tags, false, zoneCheck)
  {
  }

  /** The two `appendZoneConfig` calls of the event handler, the first meant
      for the private scope and the second for the public one. Because both
      load the private scope, every resolved configuration is private, and a
      configured instance gets the same private configuration twice. */
  function ResolveZoneConfigs(tags: seq<Tag>, firstCheck: Option<Error>, secondCheck: Option<Error>)
    : (r: Result<seq<ZoneConfig>, Error>)
    ensures Load(tags, false, firstCheck).result.Failure? ==>
              r == Failure(Load(tags, false, firstCheck).result.error)
    ensures Load(tags, false, firstCheck).result == Success(None) ==> r == Success([])
    ensures var first := Load(tags, false, firstCheck).result;
            first.Success? && first.value.Some? ==>
              && (secondCheck.Some? ==> r == Failure(secondCheck.value))
              && (secondCheck.None? ==> r == Success([first.value.value, first.value.value]))
    ensures r.Success? ==> forall i | 0 <= i < |r.value| :: !r.value[i].isPublic
    ensures r.Success? ==> |r.value| == 0 || (|r.value| == 2 && r.value[0] == r.value[1])
    ensures r.Success? && |r.value| == 2 ==> Load(tags, false, firstCheck).result == Success(Some(r.value[0]))
  {
    var first := AppendZoneConfig([], tags, false, firstCheck);
    if first.Failure? then Failure(first.error)
    else
      assert first.value != [] ==> firstCheck.None? by {
        LoadBuildsOnlyAfterPassingCheck(tags, false, firstCheck);
      }
      var second := AppendZoneConfig(first.value, tags, true, secondCheck);
      assert second.Success? && |second.value| == 2 ==> second.value == [second.value[0], second.value[1]];
      second
  }

  /** Upsert on a launch, delete on a termination: the submitted batch
      changes every record pair of the configuration with that action, in
      the configuration's hosted zone. A termination submits exactly when
      every lookup succeeds and otherwise returns the first failed lookup's
      error. */
  function Reconcile(launching: bool, config: ZoneConfig, instance: Instance, list: Lister, change: Changer)
    : (r: Submission)
    ensures r.err.None? ==> r.call.Some?
    ensures launching ==> r.call.Some?
    ensures r.call.Some? ==>
              && r.call.value.hostedZoneId == config.hostedZoneId
              && r.err == change(r.call.value)
              && |r.call.value.changes| == 2 * |config.dnsRecords|
              && forall ch | ch in r.call.value.changes :: ch.action == (if launching then UPSERT else DELETE)
    ensures !launching ==>
              (r.call.Some? <==>
                 forall i | 0 <= i < |config.dnsRecords| ::
                   Lookup(list, config.dnsRecords[i], config.setIdentifier).Success?)
    ensures !launching ==>
              forall k | FirstFailureAt(list, config.dnsRecords, config.setIdentifier, k) ::
                r == Submission(None, Some(Lookup(list, config.dnsRecords[k], config.setIdentifier).error))
    ensures r.call.Some? ==>
              var cs := r.call.value.changes;
              && (forall j | 0 <= j < |cs| ::
                    && cs[j].recordSet.name == config.dnsRecords[j / 2]
                    && cs[j].recordSet.recordType == (if j % 2 == 0 then TXT else A)
                    && cs[j].recordSet.ttl == Some(Ttl)
                    && cs[j].recordSet.setIdentifier == config.setIdentifier
                    && cs[j].recordSet.multiValueAnswer == MultiValueAnswer(config))
              && (forall j | 0 <= j < |cs| && j % 2 == 0 ::
                    cs[j].recordSet.resourceRecords == [ResourceRecord(Some(TxtValue(instance.instanceId)))])
              && (forall j | 0 <= j < |cs| && j % 2 == 1 ::
                    cs[j].recordSet.resourceRecords
                    == if launching then [ResourceRecord(PublishedAddress(config, instance))]
                       else Lookup(list, config.dnsRecords[j / 2], config.setIdentifier).value.resourceRecords)
  {
    if launching then UpsertRecordSets(config, instance, change)
    else DeleteRecordSets(config, instance, list, change)
  }

  /** A termination whose listings answer with exactly what the launch wrote
      submits the launch's batch with every action turned into DELETE, whatever
      the two change calls answer. */
  lemma {:induction false} TerminateUndoesLaunch(config: ZoneConfig, instance: Instance, list: Lister,
                                                 launchChange: Changer, terminateChange: Changer)
    requires forall i | 0 <= i < |config.dnsRecords| ::
               list(config.dnsRecords[i]) == Success([UpsertedARecordSet(config, instance, config.dnsRecords[i])])
    ensures var up := Reconcile(true, config, instance, list, launchChange).call.value;
            Reconcile(false, config, instance, list, terminateChange).call
              == Some(ChangeCall(up.hostedZoneId, WithAction(up.changes, DELETE)))
  {
    DeleteMirrorsUpsert(config, instance, list, terminateChange);
    assert UpsertRecordSets(config, instance, launchChange).call
           == UpsertRecordSets(config, instance, terminateChange).call;
  }

  /** The change calls a reconciliation submitted. */
  function Submitted(s: Submission): seq<ChangeCall> {
    if s.call.Some? then [s.call.value] else []
  }

  /** The change calls a handler run submitted, and the error it returned. */
  datatype EventOutcome = EventOutcome(calls: seq<ChangeCall>, err: Option<Error>)

  /** Every reconciliation that did not fail submitted its change call. */
  predicate SubmittedUnlessFailed(subs: seq<Submission>) {
    forall i | 0 <= i < |subs| :: subs[i].err.None? ==> subs[i].call.Some?
  }

  /** The reconciliations of `configs` in order. The `i`-th is answered by
      the `i`-th listing and change-call outcomes, because every remote call
      may answer differently: a second DELETE of records the first one already
      removed can fail. */
  function Reconciliations(launching: bool, configs: seq<ZoneConfig>, instance: Instance,
                           listAt: nat -> Lister, changeAt: nat -> Changer): (subs: seq<Submission>)
    ensures |subs| == |configs|
    ensures SubmittedUnlessFailed(subs)
    ensures forall i | 0 <= i < |subs| ::
              subs[i] == Reconcile(launching, configs[i], instance, listAt(i), changeAt(i))
  {
    var subs := seq(|configs|, i requires 0 <= i < |configs| =>
                      Reconcile(launching, configs[i], instance, listAt(i), changeAt(i)));
    assert forall i | 0 <= i < |subs| ::
             subs[i] == Reconcile(launching, configs[i], instance, listAt(i), changeAt(i));
    subs
  }

  /** `k` is the first reconciliation that fails. */
  predicate FirstErrorAt(subs: seq<Submission>, k: int) {
    && 0 <= k < |subs|
    && subs[k].err.Some?
    && forall i | 0 <= i < k :: subs[i].err.None?
  }

  /** The loop over configurations: reconciled in order, the first error
      stops the loop and is returned. The `j`-th change call submitted is the
      `j`-th reconciliation's. */
  function DispatchConfigs(subs: seq<Submission>): (r: EventOutcome)
    requires SubmittedUnlessFailed(subs)
    ensures r.err.None? <==> forall i | 0 <= i < |subs| :: subs[i].err.None?
    ensures r.err.None? ==> |r.calls| == |subs|
    ensures |r.calls| <= |subs|
    ensures forall j | 0 <= j < |r.calls| :: subs[j].call == Some(r.calls[j])
    decreases |subs|
  {
    if |subs| == 0 then EventOutcome([], None)
    else if subs[0].err.Some? then EventOutcome(Submitted(subs[0]), subs[0].err)
    else
      var rest := DispatchConfigs(subs[1..]);
      assert forall j | 1 <= j < |subs| :: subs[j] == subs[1..][j - 1];
      EventOutcome([subs[0].call.value] + rest.calls, rest.err)
  }

  /** When the `k`-th reconciliation is the first to fail, the loop returns
      its error, after the change calls of the reconciliations before it and
      the failing one's own call, if it made one; no later change call is
      submitted. */
  lemma {:induction false} DispatchStopsAtFirstError(subs: seq<Submission>, k: int)
    requires SubmittedUnlessFailed(subs)
    requires FirstErrorAt(subs, k)
    ensures var r := DispatchConfigs(subs);
            && r.err == subs[k].err
            && |r.calls| == k + |Submitted(subs[k])|
            && r.calls[k..] == Submitted(subs[k])
            && forall i | 0 <= i < k :: r.calls[i] == subs[i].call.value
    decreases k
  {
    var r := DispatchConfigs(subs);
    if k > 0 {
      var rest := subs[1..];
      assert FirstErrorAt(rest, k - 1) by {
        assert forall i | 0 <= i < k - 1 :: rest[i] == subs[i + 1];
      }
      DispatchStopsAtFirstError(rest, k - 1);
      var r' := DispatchConfigs(rest);
      assert r.calls == [subs[0].call.value] + r'.calls;
      assert r.calls[k..] == r'.calls[k - 1..];
    }
    assert forall i | 0 <= i < k :: r.calls[i] == subs[i].call.value;
  }

  /** `lifecycleEventHandler` after the instance lookup: resolves the
      configurations, then upserts on a launch, deletes on a termination, and
      rejects any other transition. The `i`-th reconciliation is answered by
      `listAt(i)` and `changeAt(i)`. */
  function LifecycleEventHandler(transition: string, instance: Instance, firstCheck: Option<Error>,
                                 secondCheck: Option<Error>, listAt: nat -> Lister, changeAt: nat -> Changer)
    : (r: EventOutcome)
    ensures var configs := ResolveZoneConfigs(instance.tags, firstCheck, secondCheck);
            && (configs.Failure? ==> r == EventOutcome([], Some(configs.error)))
            && (configs.Success? && !Supported(transition) ==>
                  r == EventOutcome([], Some(UnsupportedTransition(transition))))
            && (configs.Success? && Supported(transition) ==>
                  r == DispatchConfigs(Reconciliations(transition == LaunchingTransition, configs.value,
                                                       instance, listAt, changeAt)))
    ensures r.err.None? ==> Supported(transition)
    ensures forall j | 0 <= j < |r.calls| ::
              forall ch | ch in r.calls[j].changes ::
                ch.action == (if transition == LaunchingTransition then UPSERT else DELETE)
  {
    var configs := ResolveZoneConfigs(instance.tags, firstCheck, secondCheck);
    if configs.Failure? then EventOutcome([], Some(configs.error))
    else if transition == LaunchingTransition then
      DispatchConfigs(Reconciliations(true, configs.value, instance, listAt, changeAt))
    else if transition == TerminatingTransition then
      DispatchConfigs(Reconciliations(false, configs.value, instance, listAt, changeAt))
    else EventOutcome([], Some(UnsupportedTransition(transition)))
  }

  /** What one Lambda invocation did: the change calls submitted, the
      lifecycle-action result sent (none when it exits early), and the error
      returned. */
  datatype HandlerOutcome = HandlerOutcome(calls: seq<ChangeCall>, completion: Option<LifecycleResult>, err: Option<Error>)

  /** `Handler` after event decoding, given the outcome the event handler has
      when run and the outcome of the completion call. Unsupported
      transitions exit before handling and complete nothing. ABANDON only
      when handling a launch failed, returning the handling error and ignoring
      the completion outcome; otherwise CONTINUE, returning the completion
      call's error. */
  function HandleEvent(transition: string, handling: EventOutcome, completeOutcome: Option<Error>)
    : (r: HandlerOutcome)
    ensures !Supported(transition) ==> r == HandlerOutcome([], None, None)
    ensures Supported(transition) ==> r.calls == handling.calls && r.completion.Some?
    ensures r.completion == Some(ABANDON) <==> transition == LaunchingTransition && handling.err.Some?
    ensures r.completion == Some(ABANDON) ==> r.err == handling.err
    ensures r.completion == Some(CONTINUE) ==> r.err == completeOutcome
    ensures transition == TerminatingTransition ==> r.completion == Some(CONTINUE)
    ensures transition == LaunchingTransition && r.err.None? ==>
              handling.err.None? && completeOutcome.None?
  {
    if !Supported(transition) then HandlerOutcome([], None, None)
    else if handling.err.Some? && transition == LaunchingTransition then
      HandlerOutcome(handling.calls, Some(ABANDON), handling.err)
    else HandlerOutcome(handling.calls, Some(CONTINUE), completeOutcome)
  }
}

=== FILE: strings.dfy ===
/** Go's `strings.Split(s, ",")`: the record-name list of a zone
    configuration is the comma-separated tag value cut at every comma, with no
    trimming and with empty segments kept. */
module Strings {

  const Comma: char := ','

  /** The segments of `s` between commas, in order. */
  function Split(s: string): (parts: seq<string>)
    ensures |parts| == multiset(s)[Comma] + 1
    ensures forall i | 0 <= i < |parts| :: Comma !in parts[i]
  {
    if |s| == 0 then [""]
    else
      assert s == [s[0]] + s[1..];
      var rest := Split(s[1..]);
      if s[0] == Comma then [""] + rest
      else [[s[0]] + rest[0]] + rest[1..]
  }

  /** `strings.Join(parts, ",")`. */
  function Join(parts: seq<string>): string
    requires |parts| >= 1
  {
    if |parts| == 1 then parts[0] else parts[0] + [Comma] + Join(parts[1..])
  }

  /** Prefixing the first segment with a character prefixes the join. */
  lemma {:induction false} JoinPrefixFirst(c: char, rest: seq<string>)
    requires |rest| >= 1
    ensures Join([[c] + rest[0]] + rest[1..]) == [c] + Join(rest)
  {
    var parts := [[c] + rest[0]] + rest[1..];
    assert parts[0] == [c] + rest[0];
    if |rest| > 1 {
      assert parts[1..] == rest[1..];
      var tail := Join(rest[1..]);
      assert Join(rest) == rest[0] + [Comma] + tail;
      assert Join(parts) == ([c] + rest[0]) + [Comma] + tail;
      assert ([c] + rest[0]) + [Comma] + tail == [c] + (rest[0] + [Comma] + tail);
    }
  }

  /** Joining the segments with commas gives back the original string. */
  lemma {:induction false} JoinSplit(s: string)
    ensures Join(Split(s)) == s
    decreases |s|
  {
    if |s| > 0 {
      var rest := Split(s[1..]);
      JoinSplit(s[1..]);
      assert s == [s[0]] + s[1..];
      if s[0] == Comma {
        assert ([""] + rest)[1..] == rest;
      } else {
        JoinPrefixFirst(s[0], rest);
      }
    }
  }

  /** Cutting at one comma splits the two sides independently: no segment is
      merged, dropped or trimmed. */
  lemma {:induction false} SplitAtComma(a: string, b: string)
    ensures Split(a + [Comma] + b) == Split(a) + Split(b)
    decreases |a|
  {
    var s := a + [Comma] + b;
    if |a| == 0 {
      assert s[1..] == b;
    } else {
      assert s[0] == a[0];
      assert s[1..] == a[1..] + [Comma] + b;
      SplitAtComma(a[1..], b);
    }
  }

  /** A comma-free string is a single segment. */
  lemma {:induction false} SplitNoComma(s: string)
    requires Comma !in s
    ensures Split(s) == [s]
  {
    JoinSplit(s);
  }

  /** Two consecutive commas produce an empty segment between them. */
  lemma {:induction false} EmptySegmentsKept(a: string, b: string)
    ensures Split(a + [Comma, Comma] + b) == Split(a) + [""] + Split(b)
  {
    var tail := [Comma] + b;
    assert a + [Comma, Comma] + b == a + [Comma] + tail;
    SplitAtComma(a, tail);
    assert Split(tail) == [""] + Split(b) by {
      assert tail[0] == Comma && tail[1..] == b;
    }
  }

  /** Splitting is the inverse of joining on comma-free segment lists, so the
      segment list is the only one that joins back to the original string. */
  lemma {:induction false} SplitJoin(parts: seq<string>)
    requires |parts| >= 1
    requires forall i | 0 <= i < |parts| :: Comma !in parts[i]
    ensures Split(Join(parts)) == parts
    decreases |parts|
  {
    SplitNoComma(parts[0]);
    if |parts| > 1 {
      SplitAtComma(parts[0], Join(parts[1..]));
      SplitJoin(parts[1..]);
    }
  }
}

=== FILE: wrappers.dfy ===
/** The wrappers used throughout the model: Go's nil pointers
    become `Option`, and Go's `(value, error)` returns become `Result`. */
module Wrappers {

  datatype Option<+T> = None | Some(value: T)

  datatype Result<+T, +E> = Success(value: T) | Failure(error: E)
}

/** The errors the reconciliation can surface. Messages built with
    `fmt.Errorf` are represented by the variant and the values they mention;
    errors returned by remote services reach the model only as the `Error`
    values of the outcome parameters, which it passes through unchanged;
    `Remote` documents their shape and is never built by the model itself. */
module Errors {

  datatype Error =
    | Incomplete(zoneIdKey: string, recordsKey: string)
    | RecordNotFound(name: string)
    | UnsupportedTransition(transition: string)
    | Remote(message: string)
}

=== FILE: zone_config_loader.dfy ===
/** The zone-configuration loader: derives, for one scope (private or
    public), the hosted zone, record names and set identifier an instance
    should be published under, from the instance's EC2 tags. The remote
    hosted-zone existence check is an input outcome. */
module ZoneConfigLoader {
  import opened Wrappers
  import opened Errors
  import opened Strings

  /** An EC2 tag. The key is modelled as always present: the lookup
      dereferences it without a nil check and would panic on a nil key, which
      is not modelled. The value is a pointer that may be nil. */
  datatype Tag = Tag(key: string, value: Option<string>)

  /** `Route53ZoneConfig`: the DNS posture of one instance in one scope. */
  datatype ZoneConfig = ZoneConfig(
    hostedZoneId: string,
    dnsRecords: seq<string>,
    setIdentifier: Option<string>,
    isPublic: bool)

  const PrivateHostedZoneIdKey: string := "asg-route53-lambda:private-hosted-zone-id"
  const PrivateDnsRecordsKey: string := "asg-route53-lambda:private-dns-records"
  const PrivateSetIdentifierKey: string := "asg-route53-lambda:private-set-identifier"
  const PublicHostedZoneIdKey: string := "asg-route53-lambda:public-hosted-zone-id"
  const PublicDnsRecordsKey: string := "asg-route53-lambda:public-dns-records"
  const PublicSetIdentifierKey: string := "asg-route53-lambda:public-set-identifier"

  const PrivatePrefix: string := "asg-route53-lambda:private-"
  const PublicPrefix: string := "asg-route53-lambda:public-"

  /** The three tag keys read for one scope. */
  datatype ScopeKeys = ScopeKeys(zoneIdKey: string, recordsKey: string, setIdentifierKey: string)

  /** The tag-key namespace of a scope: all three keys lie under the scope's
      own prefix and are pairwise distinct. */
  function KeysFor(isPublic: bool): (k: ScopeKeys)
    ensures k.zoneIdKey != k.recordsKey
    ensures k.zoneIdKey != k.setIdentifierKey
    ensures k.recordsKey != k.setIdentifierKey
    ensures var prefix := if isPublic then PublicPrefix else PrivatePrefix;
            && prefix <= k.zoneIdKey
            && prefix <= k.recordsKey
            && prefix <= k.setIdentifierKey
  {
    if isPublic then
      ScopeKeys(PublicHostedZoneIdKey, PublicDnsRecordsKey, PublicSetIdentifierKey)
    else
      ScopeKeys(PrivateHostedZoneIdKey, PrivateDnsRecordsKey, PrivateSetIdentifierKey)
  }

  predicate InScope(key: string, k: ScopeKeys) {
    key == k.zoneIdKey || key == k.recordsKey || key == k.setIdentifierKey
  }

  /** No tag key is read by both scopes, so the two loads never interfere. */
  lemma ScopesDisjoint(key: string)
    ensures !(InScope(key, KeysFor(false)) && InScope(key, KeysFor(true)))
  {
  }

  /** `i` is the position of the first tag whose key is `key`. */
  predicate FirstKeyAt(tags: seq<Tag>, key: string, i: int) {
    && 0 <= i < |tags|
    && tags[i].key == key
    && forall j | 0 <= j < i :: tags[j].key != key
  }

  /** `findValueFromEC2Tags`: scans the tags in order for the key. */
  function FindValue(tags: seq<Tag>, key: string): Option<string> {
    if |tags| == 0 then None
    else if tags[0].key == key then tags[0].value
    else FindValue(tags[1..], key)
  }

  /** The lookup yields the value of the first tag whose key is `key` (nil
      when that tag's value is nil), and nil when no tag has the key. */
  lemma {:induction false} FindValueFirstMatch(tags: seq<Tag>, key: string)
    ensures (forall i | 0 <= i < |tags| :: tags[i].key != key) ==> FindValue(tags, key) == None
    ensures forall i | FirstKeyAt(tags, key, i) :: FindValue(tags, key) == tags[i].value
    decreases |tags|
  {
    if |tags| > 0 && tags[0].key != key {
      FindValueFirstMatch(tags[1..], key);
      assert forall i | FirstKeyAt(tags, key, i) :: FirstKeyAt(tags[1..], key, i - 1);
    }
  }

  /** What the loader did: the hosted zone whose existence it checked, if any,
      and its `(config, error)` result (`Success(None)` is `nil, nil`). */
  datatype Loaded = Loaded(zoneChecked: Option<string>, result: Result<Option<ZoneConfig>, Error>)

  /** A configuration the loader can produce: at least one record name, none
      containing a comma. */
  predicate ValidConfig(c: ZoneConfig) {
    && |c.dnsRecords| >= 1
    && forall i | 0 <= i < |c.dnsRecords| :: Comma !in c.dnsRecords[i]
  }

  /** The configuration built from a present zone id and record list: the
      record list is cut at every comma, and joining the names back gives the
      tag value. */
  function NewConfig(zoneId: string, records: string, setIdentifier: Option<string>, isPublic: bool): (c: ZoneConfig)
    ensures ValidConfig(c)
    ensures c.hostedZoneId == zoneId && c.setIdentifier == setIdentifier && c.isPublic == isPublic
    ensures Join(c.dnsRecords) == records
    ensures |c.dnsRecords| == multiset(records)[Comma] + 1
  {
    JoinSplit(records);
    ZoneConfig(zoneId, Split(records), setIdentifier, isPublic)
  }

  /** The decision `Load` takes once the scope's three tag values are looked
      up: exactly one of zone id and record list is an error naming both keys,
      neither is "absent", both triggers the existence check of that zone,
      whose failure is returned unchanged; otherwise the record list is split
      at commas. */
  function FromTagValues(k: ScopeKeys, zoneId: Option<string>, records: Option<string>,
                         setIdentifier: Option<string>, isPublic: bool, zoneCheck: Option<Error>): (r: Loaded)
    ensures zoneId.Some? != records.Some? ==>
              r == Loaded(None, Failure(Incomplete(k.zoneIdKey, k.recordsKey)))
    ensures zoneId.None? && records.None? ==> r == Loaded(None, Success(None))
    ensures zoneId.Some? && records.Some? ==>
              && r.zoneChecked == zoneId
              && (zoneCheck.Some? ==> r.result == Failure(zoneCheck.value))
              && (zoneCheck.None? ==> r.result.Success? && r.result.value.Some?)
    ensures r.result.Success? && r.result.value.Some? ==>
              var c := r.result.value.value;
              && ValidConfig(c)
              && c.isPublic == isPublic
              && zoneCheck.None?
              && zoneId == r.zoneChecked == Some(c.hostedZoneId)
              && records == Some(Join(c.dnsRecords))
              && c.setIdentifier == setIdentifier
  {
    if (zoneId.Some? && records.None?) || (zoneId.None? && records.Some?) then
      Loaded(None, Failure(Incomplete(k.zoneIdKey, k.recordsKey)))
    else if zoneId.Some? && records.Some? then
      if zoneCheck.Some? then
        Loaded(Some(zoneId.value), Failure(zoneCheck.value))
      else
        Loaded(Some(zoneId.value),
               Success(Some(NewConfig(zoneId.value, records.value, setIdentifier, isPublic))))
    else
      Loaded(None, Success(None))
  }

  /** `Load`: reads the scope's zone-id, record-list and set-identifier tags.
      Exactly one of zone id and record list is an error, neither is "absent",
      both triggers the existence check of that zone, whose failure is returned
      unchanged; otherwise the record list is split at commas. */
  function Load(tags: seq<Tag>, isPublic: bool, zoneCheck: Option<Error>): (r: Loaded)
    ensures var k := KeysFor(isPublic);
            FindValue(tags, k.zoneIdKey).Some? != FindValue(tags, k.recordsKey).Some? ==>
              r == Loaded(None, Failure(Incomplete(k.zoneIdKey, k.recordsKey)))
    ensures var k := KeysFor(isPublic);
            FindValue(tags, k.zoneIdKey).None? && FindValue(tags, k.recordsKey).None? ==>
              r == Loaded(None, Success(None))
    ensures var k := KeysFor(isPublic);
            FindValue(tags, k.zoneIdKey).Some? && FindValue(tags, k.recordsKey).Some? ==>
              && r.zoneChecked == FindValue(tags, k.zoneIdKey)
              && (zoneCheck.Some? ==> r.result == Failure(zoneCheck.value))
              && (zoneCheck.None? ==> r.result.Success? && r.result.value.Some?)
    ensures r.result.Success? && r.result.value.Some? ==>
              var c := r.result.value.value;
              var k := KeysFor(isPublic);
              && ValidConfig(c)
              && c.isPublic == isPublic
              && r.zoneChecked == Some(c.hostedZoneId)
              && FindValue(tags, k.zoneIdKey) == Some(c.hostedZoneId)
              && FindValue(tags, k.recordsKey) == Some(Join(c.dnsRecords))
              && |c.dnsRecords| == multiset(Join(c.dnsRecords))[Comma] + 1
              && c.setIdentifier == FindValue(tags, k.setIdentifierKey)
  {
    var k := KeysFor(isPublic);
    FromTagValues(k, FindValue(tags, k.zoneIdKey), FindValue(tags, k.recordsKey),
                  FindValue(tags, k.setIdentifierKey), isPublic, zoneCheck)
  }

  /** A load builds a configuration only after the zone check passed. */
  lemma LoadBuildsOnlyAfterPassingCheck(tags: seq<Tag>, isPublic: bool, zoneCheck: Option<Error>)
    ensures Load(tags, isPublic, zoneCheck).result.Success? && Load(tags, isPublic, zoneCheck).result.value.Some?
            ==> zoneCheck.None?
  {
  }

  /** `MultiValueAnswer`: `true` exactly when the configuration has a set
      identifier, nil otherwise; it is never `false`. */
  function MultiValueAnswer(c: ZoneConfig): (r: Option<bool>)
    ensures r.Some? <==> c.setIdentifier.Some?
    ensures r != Some(false)
  {
    if c.setIdentifier.Some? then Some(true) else None
  }

  /** The tags that describe `c` in its scope; the set-identifier tag is left
      off when `c` has none. */
  function TagsFor(c: ZoneConfig): seq<Tag>
    requires |c.dnsRecords| >= 1
  {
    var k := KeysFor(c.isPublic);
    [Tag(k.zoneIdKey, Some(c.hostedZoneId)), Tag(k.recordsKey, Some(Join(c.dnsRecords)))]
    + (if c.setIdentifier.Some? then [Tag(k.setIdentifierKey, c.setIdentifier)] else [])
  }

  /** The tags describing `c` hold exactly its zone id, joined record list
      and set identifier under the scope's keys. */
  lemma {:induction false} TagsForValues(c: ZoneConfig)
    requires |c.dnsRecords| >= 1
    ensures var k := KeysFor(c.isPublic);
            && FindValue(TagsFor(c), k.zoneIdKey) == Some(c.hostedZoneId)
            && FindValue(TagsFor(c), k.recordsKey) == Some(Join(c.dnsRecords))
            && FindValue(TagsFor(c), k.setIdentifierKey) == c.setIdentifier
  {
    var k := KeysFor(c.isPublic);
    var tags := TagsFor(c);
    var sid := k.setIdentifierKey;
    assert tags[0] == Tag(k.zoneIdKey, Some(c.hostedZoneId));
    assert tags[1..][0] == Tag(k.recordsKey, Some(Join(c.dnsRecords)));
    assert FindValue(tags, k.recordsKey) == FindValue(tags[1..], k.recordsKey);
    assert FindValue(tags, sid) == FindValue(tags[1..], sid) == FindValue(tags[2..], sid);
    if c.setIdentifier.Some? {
      assert tags[2..] == [Tag(sid, c.setIdentifier)];
    } else {
      assert tags[2..] == [];
    }
  }

  /** Loading the tags that describe a valid configuration, with a zone check
      that succeeds, gives back exactly that configuration. */
  lemma {:induction false} LoadTagsRoundTrip(c: ZoneConfig)
    requires ValidConfig(c)
    ensures Load(TagsFor(c), c.isPublic, None) == Loaded(Some(c.hostedZoneId), Success(Some(c)))
  {
    TagsForValues(c);
    SplitJoin(c.dnsRecords);
    assert NewConfig(c.hostedZoneId, Join(c.dnsRecords), c.setIdentifier, c.isPublic) == c;
  }

  /** The tags of `tags` whose key belongs to the scope `k`, in order. */
  function ScopeTags(tags: seq<Tag>, k: ScopeKeys): (r: seq<Tag>)
    ensures forall i | 0 <= i < |r| :: InScope(r[i].key, k)
  {
    if |tags| == 0 then []
    else if InScope(tags[0].key, k) then [tags[0]] + ScopeTags(tags[1..], k)
    else ScopeTags(tags[1..], k)
  }

  /** Filtering distributes over concatenation. */
  lemma {:induction false} ScopeTagsAppend(a: seq<Tag>, b: seq<Tag>, k: ScopeKeys)
    ensures ScopeTags(a + b, k) == ScopeTags(a, k) + ScopeTags(b, k)
    decreases |a|
  {
    if |a| == 0 {
      assert a + b == b;
    } else {
      assert (a + b)[0] == a[0];
      assert (a + b)[1..] == a[1..] + b;
      ScopeTagsAppend(a[1..], b, k);
    }
  }

  /** Filtering keeps a list entirely in scope and drops a list entirely out
      of it. */
  lemma {:induction false} ScopeTagsAll(tags: seq<Tag>, k: ScopeKeys)
    ensures (forall i | 0 <= i < |tags| :: InScope(tags[i].key, k)) ==> ScopeTags(tags, k) == tags
    ensures (forall i | 0 <= i < |tags| :: !InScope(tags[i].key, k)) ==> ScopeTags(tags, k) == []
    decreases |tags|
  {
    if |tags| > 0 {
      ScopeTagsAll(tags[1..], k);
      assert forall i | 1 <= i < |tags| :: tags[1..][i - 1] == tags[i];
      assert tags == [tags[0]] + tags[1..];
    }
  }

  /** Removing tags whose key is not `key` in front of or after the first
      match does not change what the lookup finds. */
  lemma {:induction false} FindValueScopeTags(tags: seq<Tag>, k: ScopeKeys, key: string)
    requires InScope(key, k)
    ensures FindValue(ScopeTags(tags, k), key) == FindValue(tags, key)
    decreases |tags|
  {
    if |tags| > 0 {
      FindValueScopeTags(tags[1..], k, key);
      if InScope(tags[0].key, k) {
        assert ([tags[0]] + ScopeTags(tags[1..], k))[1..] == ScopeTags(tags[1..], k);
      }
    }
  }

  /** A scope's load sees only the tags of its own namespace: the other
      scope's tags, and any unrelated tags, never influence it. */
  lemma {:induction false} LoadReadsOnlyOwnScope(tags: seq<Tag>, isPublic: bool, zoneCheck: Option<Error>)
    ensures Load(ScopeTags(tags, KeysFor(isPublic)), isPublic, zoneCheck) == Load(tags, isPublic, zoneCheck)
  {
    var k := KeysFor(isPublic);
    FindValueScopeTags(tags, k, k.zoneIdKey);
    FindValueScopeTags(tags, k, k.recordsKey);
    FindValueScopeTags(tags, k, k.setIdentifierKey);
  }

  /** Filtering tags inside the scope surrounded by tags outside it leaves
      the former. */
  lemma {:induction false} ScopeTagsAroundOwn(before: seq<Tag>, own: seq<Tag>, after: seq<Tag>, k: ScopeKeys)
    requires forall i | 0 <= i < |before| :: !InScope(before[i].key, k)
    requires forall i | 0 <= i < |own| :: InScope(own[i].key, k)
    requires forall i | 0 <= i < |after| :: !InScope(after[i].key, k)
    ensures ScopeTags(before + own + after, k) == own
  {
    ScopeTagsAppend(before + own, after, k);
    ScopeTagsAppend(before, own, k);
    ScopeTagsAll(before, k);
    ScopeTagsAll(own, k);
    ScopeTagsAll(after, k);
  }

  /** The configured cases of the loader's own tests, for any values: the
      tags describing a valid configuration, with any tags outside that
      scope's namespace (such as the other scope's) before and after them,
      load as exactly that configuration. */
  lemma {:induction false} LoadAmongOtherScopeTags(before: seq<Tag>, c: ZoneConfig, after: seq<Tag>)
    requires ValidConfig(c)
    requires forall i | 0 <= i < |before| :: !InScope(before[i].key, KeysFor(c.isPublic))
    requires forall i | 0 <= i < |after| :: !InScope(after[i].key, KeysFor(c.isPublic))
    ensures Load(before + TagsFor(c) + after, c.isPublic, None) == Loaded(Some(c.hostedZoneId), Success(Some(c)))
  {
    var k := KeysFor(c.isPublic);
    var own := TagsFor(c);
    var tags := before + own + after;
    assert forall i | 0 <= i < |own| :: InScope(own[i].key, k);
    ScopeTagsAroundOwn(before, own, after, k);
    LoadReadsOnlyOwnScope(tags, c.isPublic, None);
    LoadTagsRoundTrip(c);
  }

  /** The empty-tag cases of the loader's own tests: with no tags, either
      scope is simply not configured, and no zone is checked. */
  lemma LoadWithoutTagsIsAbsent(isPublic: bool, zoneCheck: Option<Error>)
    ensures Load([], isPublic, zoneCheck) == Loaded(None, Success(None))
  {
  }
}
